=== FILE: README.md ===
# Image-annotation tool: canvas, undo/redo, folder loading, auto-labelling and label dialogs

A Dafny model of the working core of a small PyQt image-annotation tool
(TPLabel): the box-drawing canvas `ImageCanvas`, the Edit menu's undo and
redo over the canvas's boxes, the image-folder loader of `FileLib`, the
batch auto-labeller `AutoLabelLogic`, and the two label-name dialogs.

Everything is functional. The canvas is an immutable record (`pixmap`,
`scale`, `offset`, `boxes`, `startPos`, `currentRect`) with one pure
transition per event handler. Qt's integer points and rectangles keep Qt's
own conventions (a `QRect` is two corners and its width is `x2 - x1 + 1`),
the scale is a positive `real`, Python's `int()` truncates toward zero and
`QPointF.toPoint()` rounds halves up. PyQt's truth value of a point or a
rectangle (`if self.start_pos:`, `if self.current_rect:`) is modelled as it
is: the null point (0, 0) and the null rectangle are false. The move handler
is modelled twice: `MouseMoveAsWritten` keeps the code's `if self.start_pos:`
guard, and `MouseMove` uses the guard the code evidently intends, "a drag has
started" (see Findings); `DragAppendsBox` and `OriginPressDrawsBox` go
through the corrected `MouseMove`, `DragAppendsBoxAsWritten` and
`OriginPressDrawsNothing` through the code as written.

What the program reads from outside is passed in: the decoded image's size
(`None` when the file does not decode), the widget's size, the size Qt gives
the scaled pixmap, a directory listing, and for auto-labelling a function
`observe` that gives an image's size and the detector's results. Label
files are returned rather than written.

Modules, one per file: `Wrappers` (Option, Result), `Numbers` (`int()`,
`qRound`), `Text` (`strip`, `lower`, `endswith`), `Order` (Python string
order, `sorted`), `Paths` (`os.path.join`, `os.path.splitext`, extension
filter), `Geometry` (points, rectangles, the view transform), `ImageCanvas`,
`Edit`, `Files`, `AutoLabel`, `SelectLabelDialog`, `NewLabelDialog`.

The code keeps no undo history: Undo pops the last box and Redo duplicates
it. Ctrl+wheel zoom steps by 1.1 with no bound; the View menu's Zoom In/Zoom
Out actions only print. There is no
panning, resize handle, box dragging, selection or label deletion cascade,
and label files are never read back.

## Model

| member | source | states |
|---|---|---|
| `ImageCanvas.Init` | widgets/image_canvas.py:7-14 | a new canvas has no image, scale 1.0, no boxes, no drag in progress and offset (0, 0), and satisfies the canvas invariant |
| `ImageCanvas.LoadImage` | widgets/image_canvas.py:17-35 | a file that does not decode leaves a null pixmap and touches neither boxes, drag state, scale nor offset; a decoded image empties the boxes, clears the drag, resets the offset to (0, 0) and sets a scale at which the image fits the canvas exactly on one axis (1.0 for a zero-sized canvas); the invariant is kept |
| `Geometry.FitScale` | widgets/image_canvas.py:26-29 | the fit scale is positive, 1.0 when the canvas has a zero side, and otherwise fits the image inside the canvas with equality on at least one axis |
| `Geometry.FitScaleIsLargest` | widgets/image_canvas.py:26-29 | any scale at which the image fits is at most the fit scale |
| `ImageCanvas.Paint` | widgets/image_canvas.py:37-51 | the canvas invariant is kept; with no image nothing changes; otherwise only the offset changes, to the one that centres the scaled pixmap with the odd pixel on the right/bottom |
| `Geometry.CenterOffset` | widgets/image_canvas.py:49-51 | floor division by 2 makes the left margin at most the right margin and the right margin at most one more, per axis |
| `Geometry.MapToImage` | widgets/image_canvas.py:63-64 | the image point returned is the one that scale-and-offset maps back to the canvas position |
| `Geometry.MapToImageUndoesToCanvas` | widgets/image_canvas.py:63-68 | over the reals, mapping an image point to the canvas and back gives the point again |
| `Geometry.ToCanvasUndoesMapToImage` | widgets/image_canvas.py:63-68 | over the reals, mapping a canvas position to the image and back gives the position again |
| `Geometry.MapToCanvas` | widgets/image_canvas.py:66-71 | the canvas rectangle's corner and size are the scaled-and-offset values truncated toward zero |
| `Geometry.MapToCanvasTruncatesTowardZero` | widgets/image_canvas.py:71 | a position of -0.5 canvas pixels is drawn at 0, not at floor -1 |
| `Numbers.Trunc` | widgets/image_canvas.py:71 | `int()` gives the integer between zero and the value within one of it, never larger in magnitude |
| `Numbers.TruncIsNotFloor` | widgets/image_canvas.py:71 | on a negative non-integer, truncation is one more than floor |
| `Numbers.Round` | widgets/image_canvas.py:82 | `toPoint()` gives the integer within one half of the value, halves rounded up |
| `Geometry.ToPoint` | widgets/image_canvas.py:82 | each coordinate of the integer corner is within one half of the real one |
| `ImageCanvas.MousePress` | widgets/image_canvas.py:73-77 | with no image or with a button other than the left one nothing changes; a left press sets only the start point, to the image point under the cursor |
| `ImageCanvas.DragRect` | widgets/image_canvas.py:81-82 | each corner of the in-progress rectangle is within half an image pixel of its real point: the first of the drag start, the second of the image point under the cursor, so that the cursor's distance from the offset lies within that half-pixel window times the scale |
| `Geometry.IsNullPoint` | widgets/image_canvas.py:80 | PyQt's truth value of a point: false exactly for (0, 0) |
| `Geometry.IsNullRect` | widgets/image_canvas.py:86 | PyQt's truth value of a rectangle: false exactly when Qt's width and height are both zero |
| `Geometry.NullRectCorners` | widgets/image_canvas.py:86-87 | a rectangle is null exactly when its second corner is one pixel before the first on both axes, so a normalised rectangle is never null |
| `ImageCanvas.MouseMoveAsWritten` | widgets/image_canvas.py:79-83 | a move with no start point, or with the start point at the image origin, changes nothing; otherwise it replaces only the in-progress rectangle |
| `ImageCanvas.MouseMove` | widgets/image_canvas.py:79-83 | with the guard "a drag has started" (see Findings): without a start point nothing changes; with one only the in-progress rectangle changes, to the rectangle between the rounded start and the rounded cursor position |
| `Geometry.Normalized` | widgets/image_canvas.py:87 | the normalised rectangle has the same corner coordinates, ordered top-left then bottom-right, and an already normal rectangle is unchanged |
| `Geometry.NormalizedSymmetric` | widgets/image_canvas.py:82-87 | in the model, whose normalisation orders the corners, the committed box does not depend on which way the drag went between two points |
| `ImageCanvas.MouseRelease` | widgets/image_canvas.py:85-90 | exactly one box, the normalised in-progress rectangle, is appended iff a non-null one exists; earlier boxes are untouched, the drag state is always cleared and scale, offset and image stay |
| `ImageCanvas.DragAppendsBox` | widgets/image_canvas.py:73-89 | with the corrected "a drag has started" guard, press, move and release on a loaded image append the normalised rectangle between the two rounded image positions (nothing if Qt counts it null) and change nothing else |
| `ImageCanvas.DragAppendsBoxAsWritten` | widgets/image_canvas.py:73-89 | as written, the same gesture appends the same rectangle, except that a press exactly at the canvas point `offset` (image origin) commits nothing; nothing else changes in either case |
| `ImageCanvas.ZoomIn` | widgets/image_canvas.py:103-105 | only the scale changes, multiplied by 1.1, so it grows and stays positive |
| `ImageCanvas.ZoomOut` | widgets/image_canvas.py:107-109 | only the scale changes, divided by 1.1, so it shrinks and stays positive |
| `ImageCanvas.ZoomRoundTrip` | widgets/image_canvas.py:103-109 | zooming in then out, or out then in, restores the state |
| `ImageCanvas.Wheel` | widgets/image_canvas.py:93-101 | without Ctrl nothing changes; with Ctrl a positive vertical delta gives exactly `ZoomIn` (scale times 1.1) and any other delta, zero included, exactly `ZoomOut` (scale divided by 1.1) |
| `ImageCanvas.WheelRoundTrip` | widgets/image_canvas.py:93-109 | with Ctrl held, a wheel step up and one down, in either order, restore the canvas; without Ctrl both are no-ops |
| `ImageCanvas.OriginPressDrawsNothing` | widgets/image_canvas.py:76-82 | as written, a left press exactly on the image origin followed by any move and a release commits no box |
| `ImageCanvas.OriginPressDrawsBox` | widgets/image_canvas.py:76-89 | with the intended guard, the same gesture commits the box whose top-left corner is the image origin |
| `Edit.Undo` | libs/edit_lib.py:22-25 | on no boxes a no-op; otherwise exactly the last box is removed and the rest kept |
| `Edit.Redo` | libs/edit_lib.py:27-30 | on no boxes a no-op; otherwise one box longer, the old list a prefix and the new last box equal to the old last; no new box value appears |
| `Edit.UndoAfterRedo` | libs/edit_lib.py:22-30 | Redo then Undo gives back the list |
| `Edit.RedoAfterUndo` | libs/edit_lib.py:22-30 | Undo then Redo turns `[…, a, b]` into `[…, a, a]` |
| `Edit.RedoDoesNotRestore` | libs/edit_lib.py:22-30 | when the two last boxes differ, Undo then Redo does not restore the list |
| `Edit.UndoTimesDropsNewest` | libs/edit_lib.py:22-24 | n Undos drop the n newest boxes, or all of them when there are fewer |
| `Edit.EditKeepsCanvasValid` | libs/edit_lib.py:22-30 | Undo and Redo keep every box on the canvas normalised |
| `Text.Strip` | dialog/new_label_dialog.py:19 | `strip()` returns a string with no whitespace at either end, empty exactly when the input is all whitespace |
| `Text.StripIsSlice` | dialog/new_label_dialog.py:19 | the stripped string is the input with only whitespace removed around it |
| `Text.StripIdempotent` | dialog/new_label_dialog.py:19 | stripping twice is stripping once |
| `Order.LexLeTotal` | libs/file_lib.py:33 | any two strings are ordered one way or the other |
| `Order.LexLeTransitive` | libs/file_lib.py:33 | string order is transitive |
| `Order.LexLeAntisymmetric` | libs/file_lib.py:33 | two strings each at most the other are equal |
| `Order.Sort` | libs/file_lib.py:33 | `sorted()` returns an ascending rearrangement of its input |
| `Order.SortedUnique` | libs/file_lib.py:33 | two ascending lists with the same elements are equal |
| `Paths.Join` | libs/file_lib.py:34 | `os.path.join` puts one separator between a directory and a relative name and keeps an absolute name as is |
| `Paths.JoinInjective` | libs/file_lib.py:34 | two relative names joined to the same directory give the same path only if they are equal |
| `Text.Lower` | libs/file_lib.py:36 | `lower()` maps each capital ASCII letter to the small letter at the same place in the alphabet and keeps every other character |
| `Text.LowerIdempotent` | libs/file_lib.py:36 | a lower-cased name has no capital letter left, so lower-casing it again changes nothing |
| `Text.EndsWith` | libs/file_lib.py:36 | `endswith(suffix)`: the last characters of the name are the suffix |
| `Text.EndsWithIsConcat` | libs/file_lib.py:36 | a name ends with a suffix exactly when it is some string followed by that suffix |
| `Text.EndsWithAny` | libs/file_lib.py:36 | `endswith` with a tuple: the name ends with at least one of the suffixes |
| `Paths.HasExt` | libs/file_lib.py:36 | the extension test of both filters: the lower-cased name ends with one of the extensions |
| `Paths.HasExtIgnoresCase` | logic/auto_label_logic.py:26 | a name and its lower-cased form pass or fail the extension test together |
| `Paths.SelectByExt` | libs/file_lib.py:35-36 | the filter keeps exactly the names whose lower-cased form ends with one of the extensions, each as often as listed, in listing order |
| `Files.JoinAll` | libs/file_lib.py:34-35 | every kept name becomes the folder joined with it, in order |
| `Files.HasExtOfJoin` | libs/file_lib.py:34-36 | a path ending in an image name has an image extension itself |
| `Files.SortedImagePaths` | libs/file_lib.py:33-37 | the joined image paths come out ascending and are a rearrangement of the joined matching names |
| `Files.SortedImagePathsSound` | libs/file_lib.py:33-37 | every path returned has an image extension and is the folder joined with a listed image name |
| `Files.SortedImagePathsComplete` | libs/file_lib.py:33-37 | one path per matching name, and every listed image name's path is returned |
| `Files.LoadImages` | libs/file_lib.py:30-37 | an empty folder gives nothing; otherwise the paths are sorted, one per matching name, each the folder joined with a listed name whose lower-cased form ends in .jpg, .jpeg, .png or .bmp, and every such name appears |
| `Files.LoadImagesIgnoresListingOrder` | libs/file_lib.py:30-37 | the result does not depend on the order of the directory listing |
| `Files.JoinAllPermutes` | libs/file_lib.py:34-35 | rearranging the names rearranges the joined paths the same way: equal name multisets give equal path multisets |
| `Files.UpperCaseNameIsLoaded` | libs/file_lib.py:36 | a listed "A.JPG" is loaded: matching ignores case |
| `Files.SortExample` | libs/file_lib.py:33 | "shots/A.JPG" sorts before "shots/b.png": code-point order |
| `AutoLabel.Init` | logic/auto_label_logic.py:10-11 | a new auto-labeller has no model |
| `AutoLabel.LoadModel` | logic/auto_label_logic.py:13-17 | with a model loaded nothing changes, whatever the path; with none, an empty path raises the "model path is not set" error and any other path loads that model |
| `AutoLabel.LoadModelOnce` | logic/auto_label_logic.py:14 | after a successful load, loading again with any path is a no-op |
| `AutoLabel.ImagesToLabel` | logic/auto_label_logic.py:24-27 | exactly the listed names whose lower-cased form ends in .jpg, .png or .jpeg are kept, with their multiplicity and in listing order |
| `AutoLabel.LabelledImagesAreShown` | logic/auto_label_logic.py:26 | every name the auto-labeller accepts the folder loader accepts too (".bmp" is only in the latter) |
| `AutoLabel.ImagesToLabelKeepsOrder` | logic/auto_label_logic.py:24-27 | a listing of images only is kept exactly as listed: no sorting |
| `Paths.SplitExt` | logic/auto_label_logic.py:38 | `splitext` splits a path into a root and an extension that concatenate back to it; the extension is non-empty exactly when some dot starts one (the last dot, followed by no separator, preceded by a non-dot in its component), and then it starts at that dot |
| `Paths.ExtStartsAtUnique` | logic/auto_label_logic.py:38 | at most one position of a path starts an extension |
| `Paths.SplitExtOfName` | logic/auto_label_logic.py:38 | a file name made of a stem that is not only dots and a dotted extension splits into exactly that stem and extension |
| `AutoLabel.LabelPath` | logic/auto_label_logic.py:36-39 | when a dot of the file name starts an extension (the last dot, with no separator after it and a non-dot before it in the same component) the label path is the label folder joined with the name cut at that dot plus ".txt"; when none does, the whole name plus ".txt" |
| `AutoLabel.LabelPathOfImage` | logic/auto_label_logic.py:36-39 | only the last extension is replaced by ".txt" |
| `AutoLabel.LabelPathOfDotName` | logic/auto_label_logic.py:36-39 | an image named ".jpg" is labelled in ".jpg.txt" |
| `AutoLabel.Normalize` | logic/auto_label_logic.py:43-49 | the class id is the detector's class truncated toward zero; centre and size divided by the image width and height multiply back to the detector's pixel values |
| `AutoLabel.NormalizeInsideImage` | logic/auto_label_logic.py:43-49 | a box inside the image gives centre and size values between 0 and 1 |
| `AutoLabel.NormalizeExample` | logic/auto_label_logic.py:43-49 | a 100 x 50 box centred in a 1000 x 800 image gives class 0 and 0.5, 0.5, 0.1, 0.0625 |
| `AutoLabel.Flatten` | logic/auto_label_logic.py:41-42 | as many detections are visited as all results hold together; every detection of every result is visited, and nothing else |
| `AutoLabel.FlattenAt` | logic/auto_label_logic.py:41-42 | the order of visiting is result by result, each in its own order: detection j of result i is visited at the number of detections in the results before i, plus j |
| `AutoLabel.FlattenKeepsRepeats` | logic/auto_label_logic.py:41-42 | a detection reported in two results is visited twice |
| `AutoLabel.Lines` | logic/auto_label_logic.py:41-50 | one line per detection, in visiting order, each the normalised detection |
| `AutoLabel.Run` | logic/auto_label_logic.py:19-51 | of the ways the run can fail only the model guard is modelled: it fails exactly when no model is loaded and the model path is empty (listing the image folder and the other I/O failures are left out); otherwise it returns the count of filtered images and writes one label file per filtered image, in listing order, at that image's label path with its detections' lines |
| `AutoLabel.RunCountIgnoresDetections` | logic/auto_label_logic.py:51 | the returned count does not depend on what the detector found |
| `SelectLabelDialog.Open` | dialog/select_label_dialog.py:4-11 | the list starts as the given labels in order, with no selected label and the dialog not accepted |
| `SelectLabelDialog.CreateLabel` | dialog/select_label_dialog.py:28-33 | one name is appended iff the input was confirmed and is not all whitespace; existing entries and the selection are untouched; the appended name is the input with surrounding whitespace removed, non-empty |
| `SelectLabelDialog.CreateLabelAllowsDuplicates` | dialog/select_label_dialog.py:33 | " cat " added to ["cat"] gives ["cat", "cat"]: no duplicate check |
| `SelectLabelDialog.AcceptLabel` | dialog/select_label_dialog.py:35-39 | with no current item nothing changes and the dialog is not accepted; with one, the selected label becomes its text and the dialog is accepted; the list is untouched |
| `SelectLabelDialog.CreateThenPick` | dialog/select_label_dialog.py:28-39 | picking a freshly created label selects the stripped typed text |
| `NewLabelDialog.Open` | dialog/new_label_dialog.py:4-7 | the name starts unset and the dialog not accepted |
| `NewLabelDialog.AcceptLabel` | dialog/new_label_dialog.py:18-22 | blank input leaves the dialog as it was; other input sets the name to the stripped input and accepts |
| `NewLabelDialog.AcceptedNameIsClean` | dialog/new_label_dialog.py:18-22 | an accepted name is non-empty, starts with a non-space and stripping it again changes nothing |

## Findings

| source | as written | input that shows it | evidently intended | confidence | as-written member | corrected member |
|---|---|---|---|---|---|---|
| widgets/image_canvas.py:80 | `if self.start_pos:` uses PyQt's truth value of a point, false for the null point (0, 0) | a left press at the canvas position equal to `offset` (image point (0, 0)), a move to `offset + (10, 10)`, a release | "a drag has started" (`start_pos is not None`): the drag commits the box from (0, 0); with PyQt5's `QPoint` division the same drag would also need the `toPoint()` call at :82 fixed (see `Geometry.MapToImage` under Left out) | medium; not executed | `ImageCanvas.MouseMoveAsWritten`, `ImageCanvas.OriginPressDrawsNothing` | `ImageCanvas.MouseMove`, `ImageCanvas.OriginPressDrawsBox` |

## Left out

- Painting: `QPainter`, pens, drawing the pixmap and the boxes, `QPixmap.scaled` (its result size is a parameter of `ImageCanvas.Paint`) and every `update()` call.
- Image decoding and widget geometry: the decoded size, the canvas size and the scaled pixmap size are parameters.
- `ImageCanvas.MouseMove`: uses the corrected guard (see Findings); `ImageCanvas.MouseMoveAsWritten` keeps the guard as written.
- `Geometry.MapToImage`: with the PyQt5 imports (widgets/image_canvas.py:1-3), `event.pos()` is a `QPoint`, `QPoint - QPoint` is a `QPoint`, and a `QPoint` divided by a float is a `QPoint` that Qt rounds. `QPoint` has no `toPoint()`, so as written widgets/image_canvas.py:82 raises `AttributeError` on the first move after any press whose rounded image point is not (0, 0); and under that reading the truth test at widgets/image_canvas.py:80 fails for every press within half an image pixel of the origin, not only for one exactly on it. The model follows the evidently intended `QPointF`: `MapToImage` returns the exact real point and `toPoint()` rounds it. This rests on the Qt 5 API and was not executed.
- `Geometry.NormalizedSymmetric`: holds for the model's normalisation only. Qt 5's `QRect.normalized()` swaps a pair of corners only when the second lies more than one pixel before the first, so a drag from (5, 0) to (4, 3) commits `QRect` corners (5, 0)-(4, 3) (width zero, not null) while the reverse drag commits (4, 0)-(5, 3).
- `Geometry.Normalized`: Qt's own handling of a rectangle whose second corner lies exactly one pixel before the first (width zero) is library code and is not modelled; the model orders the two corners.
- `ImageCanvas.Wheel`: `event.ignore()` passes the event to the parent widget; that propagation is outside the model.
- Floating point: scale, the zoom factor 1.1 and the normalised label values are exact reals; IEEE rounding and the `:.6f` formatting of label lines are left out.
- `Text.Lower`: only ASCII letters are lower-cased; other case mappings cannot change whether a name ends in one of the image extensions.
- `Paths.Join`, `Paths.SplitExt`: POSIX `os.path` with `/` as the separator. The program targets Windows (logic/auto_label_logic.py:7-8 rebinds `pathlib.PosixPath` to `WindowsPath`, which only works there), and on Windows `os.path.join` inserts a backslash, so every path `Files.LoadImages` and `AutoLabel.LabelPath` return has `/` where the program has `\`; Windows drive letters and the backslash as a separator in `splitext` are not modelled either.
- `Geometry.MapToCanvas`, `Numbers.Round`, `ImageCanvas.ZoomIn`, `ImageCanvas.ZoomOut`: integers are unbounded, while `QRect` and `QPoint` hold 32-bit C ints. After enough zoom-ins the arguments of `QRect(int(x), int(y), int(w), int(h))` (widgets/image_canvas.py:71) leave that range and PyQt rejects them; after enough zoom-outs the rounding in `toPoint()` (widgets/image_canvas.py:82) overflows. Neither failure is modelled.
- `AutoLabel.LoadModel`: constructing the detector from a non-empty path is assumed to succeed; a failure while loading the weights is not modelled.
- `AutoLabel.Run`: creating the label folder, listing the image folder (`os.listdir` raises for a missing, non-directory or unreadable folder), reading image sizes, running the detector (with its confidence threshold) and writing files are outside the model; an exception from any of them, which aborts the batch, is not modelled.
- The background worker thread and its signals, the logger, the menus and actions of `FileLib`, `EditLib` and `ViewLib` (whose zoom actions only print), the help and loading dialogs, the generic dialog helpers and the main window: plumbing, concurrency and logging. The main window's wiring is also inconsistent with the classes it uses (it builds `FileLib()` without its window argument, calls `run` with two image lists, and defines no `canvas` for `EditLib`), so it is not modelled.

=== FILE: autolabel.dfy ===
/** `AutoLabelLogic`: run a detector over a folder and write one label file
    per image. The detector (`YOLO`), decoding an image for its size and the
    file system are outside the model: the directory listing is an input,
    `observe` stands for "open this image and run the detector on it", and
    the label files are returned instead of written. */
module AutoLabel {
  import opened Wrappers
  import opened Numbers
  import opened Text
  import opened Paths
  import opened Geometry
  import Files

  /** A loaded detector, identified by the weights it was loaded from. */
  datatype Model = Model(path: string)

  datatype Logic = Logic(model: Option<Model>)

  /** The `ValueError("Model path is not set.")` `load_model` raises. */
  datatype LabelError = ModelPathNotSet

  /** The state `__init__` sets up: no model. */
  function Init(): (l: Logic)
    ensures l.model.None?
  {
    Logic(None)
  }

  /** `load_model`: load once; later calls keep the loaded model. */
  function LoadModel(l: Logic, modelPath: string): (r: Result<Logic, LabelError>)
    ensures r.Err? <==> l.model.None? && modelPath == []
    ensures r.Err? ==> r.error == ModelPathNotSet
    ensures l.model.Some? ==> r == Ok(l)
    ensures r.Ok? ==> r.value.model.Some?
    ensures l.model.None? && r.Ok? ==> r.value.model.value.path == modelPath
  {
    if l.model.None? then
      if modelPath == [] then Err(ModelPathNotSet)
      else Ok(Logic(Some(Model(modelPath))))
    else Ok(l)
  }

  /** Once a model is loaded, loading again with any path, the empty one
      included, changes nothing. */
  lemma LoadModelOnce(l: Logic, first: string, second: string)
    requires LoadModel(l, first).Ok?
    ensures LoadModel(LoadModel(l, first).value, second) == LoadModel(l, first)
  {
  }

  /** The extensions `run` accepts: unlike `FileLib.IMAGE_EXTS`, no ".bmp". */
  const LabelExts: seq<string> := [".jpg", ".png", ".jpeg"]

  /** The image filter of `run`: listing order, no sorting. */
  function ImagesToLabel(listing: seq<string>): (images: seq<string>)
    ensures IsSubsequence(images, listing)
    ensures forall n :: n in images <==> n in listing && HasExt(n, LabelExts)
    ensures forall n :: multiset(images)[n] == if HasExt(n, LabelExts) then multiset(listing)[n] else 0
  {
    SelectByExt(listing, LabelExts)
  }

  /** Every image `run` labels is one `FileLib.load_images` also shows. */
  lemma LabelledImagesAreShown(name: string)
    requires HasExt(name, LabelExts)
    ensures HasExt(name, Files.ImageExts)
  {
    var k :| 0 <= k < |LabelExts| && EndsWith(Lower(name), LabelExts[k]);
    var j := if k == 0 then 0 else if k == 1 then 2 else 1;
    assert Files.ImageExts[j] == LabelExts[k];
  }

  /** A listing already free of non-images is kept as it is, in its own
      order: `run` does not sort. */
  lemma ImagesToLabelKeepsOrder(listing: seq<string>)
    requires forall k :: 0 <= k < |listing| ==> HasExt(listing[k], LabelExts)
    ensures ImagesToLabel(listing) == listing
  {
    var images := ImagesToLabel(listing);
    assert |images| == |multiset(images)| == |multiset(listing)| == |listing| by {
      assert forall n :: multiset(images)[n] == multiset(listing)[n];
      assert multiset(images) == multiset(listing);
    }
    SubsequenceOfSameLength(images, listing);
  }

  lemma {:induction false} SubsequenceOfSameLength(a: seq<string>, b: seq<string>)
    requires IsSubsequence(a, b) && |a| == |b|
    ensures a == b
  {
    if a != [] {
      if a[0] == b[0] {
        SubsequenceOfSameLength(a[1..], b[1..]);
        assert a == [a[0]] + a[1..] && b == [b[0]] + b[1..];
      } else {
        SubsequenceNotLonger(a, b[1..]);
      }
    }
  }

  lemma {:induction false} SubsequenceNotLonger(a: seq<string>, b: seq<string>)
    requires IsSubsequence(a, b)
    ensures |a| <= |b|
  {
    if a != [] && b != [] {
      if a[0] == b[0] { SubsequenceNotLonger(a[1..], b[1..]); }
      else { SubsequenceNotLonger(a, b[1..]); }
    }
  }

  /** The label file of an image: `label_dir` joined with the file name
      minus its last extension, plus ".txt". */
  function LabelPath(labelDir: string, filename: string): (p: string)
    ensures (forall i :: !ExtStartsAt(filename, i)) ==> p == Join(labelDir, filename + ".txt")
    ensures forall i :: ExtStartsAt(filename, i) ==> p == Join(labelDir, filename[..i] + ".txt")
  {
    var parts := SplitExt(filename);
    assert forall i :: ExtStartsAt(filename, i) ==> parts.0 == filename[..i] by {
      forall i | ExtStartsAt(filename, i)
        ensures parts.0 == filename[..i]
      {
        ExtStartsAtUnique(filename, i, |parts.0|);
      }
    }
    Join(labelDir, parts.0 + ".txt")
  }

  /** For an ordinary image name only the final extension is replaced, so
      "a.b.jpg" is labelled in "a.b.txt". */
  lemma LabelPathOfImage(labelDir: string, stem: string, ext: string)
    requires forall k :: 0 <= k < |stem| ==> stem[k] != Sep
    requires HasNonDot(stem)
    requires |ext| > 0 && ext[0] == '.'
    requires forall k :: 0 < k < |ext| ==> ext[k] != '.' && ext[k] != Sep
    ensures LabelPath(labelDir, stem + ext) == Join(labelDir, stem + ".txt")
  {
    SplitExtOfName(stem, ext);
  }

  /** A name that is only an extension has none to `splitext`: ".jpg" is
      labelled in ".jpg.txt". */
  lemma LabelPathOfDotName(labelDir: string)
    ensures LabelPath(labelDir, ".jpg") == Join(labelDir, ".jpg.txt")
  {
    var p := ".jpg";
    RFindAt(p, Sep, -1);
    RFindAt(p, '.', 0);
  }

  /** One detection: `box.cls[0]` and `box.xywh[0]`, the box's centre, width
      and height in image pixels. */
  datatype Detection = Detection(cls: real, x: real, y: real, w: real, h: real)

  /** One line of a label file: class id, then centre and size relative to
      the image. */
  datatype LabelLine = LabelLine(classId: int, cx: real, cy: real, w: real, h: real)

  /** The record `run` writes for a detection in a `width` x `height` image. */
  function Normalize(d: Detection, width: Dim, height: Dim): (line: LabelLine)
    ensures IsTruncation(line.classId, d.cls)
    ensures line.cx * width as real == d.x && line.w * width as real == d.w
    ensures line.cy * height as real == d.y && line.h * height as real == d.h
  {
    LabelLine(Trunc(d.cls), d.x / width as real, d.y / height as real,
              d.w / width as real, d.h / height as real)
  }

  /** A box lying inside the image gives values between 0 and 1. */
  lemma NormalizeInsideImage(d: Detection, width: Dim, height: Dim)
    requires 0.0 <= d.w && 0.0 <= d.x - d.w / 2.0 && d.x + d.w / 2.0 <= width as real
    requires 0.0 <= d.h && 0.0 <= d.y - d.h / 2.0 && d.y + d.h / 2.0 <= height as real
    ensures var line := Normalize(d, width, height);
            && 0.0 <= line.cx <= 1.0 && 0.0 <= line.w <= 1.0
            && 0.0 <= line.cy <= 1.0 && 0.0 <= line.h <= 1.0
  {
    Fraction(d.x, width as real);
    Fraction(d.w, width as real);
    Fraction(d.y, height as real);
    Fraction(d.h, height as real);
  }

  lemma Fraction(v: real, extent: real)
    requires 0.0 <= v <= extent && extent > 0.0
    ensures 0.0 <= v / extent <= 1.0
  {
  }

  /** A 100 x 50 box centred in a 1000 x 800 image. */
  lemma NormalizeExample()
    ensures Normalize(Detection(0.0, 500.0, 400.0, 100.0, 50.0), 1000, 800)
            == LabelLine(0, 0.5, 0.5, 0.1, 0.0625)
  {
  }

  /** The number of detections in the first `i` results: where the
      detections of result `i` start in the visiting order. */
  function Offset(results: seq<seq<Detection>>, i: nat): nat
    requires i <= |results|
  {
    if i == 0 then 0 else |results[0]| + Offset(results[1..], i - 1)
  }

  /** The detections of all results, in the order `run` visits them: result
      by result, and within a result in its own order (`FlattenAt`). */
  function Flatten(results: seq<seq<Detection>>): (ds: seq<Detection>)
    ensures |ds| == Offset(results, |results|)
    ensures forall r, d :: r in results && d in r ==> d in ds
    ensures forall d :: d in ds ==> exists r :: r in results && d in r
  {
    if results == [] then [] else results[0] + Flatten(results[1..])
  }

  /** Detection `j` of result `i` is visited at position `Offset(results, i) + j`. */
  lemma {:induction false} FlattenAt(results: seq<seq<Detection>>, i: nat, j: nat)
    requires i < |results| && j < |results[i]|
    ensures Offset(results, i) + j < |Flatten(results)|
    ensures Flatten(results)[Offset(results, i) + j] == results[i][j]
  {
    if i > 0 {
      FlattenAt(results[1..], i - 1, j);
      OffsetGrows(results, i);
    } else {
      OffsetGrows(results, 0);
    }
  }

  /** The detections of result `i` end no later than all detections do. */
  lemma {:induction false} OffsetGrows(results: seq<seq<Detection>>, i: nat)
    requires i < |results|
    ensures Offset(results, i) + |results[i]| <= Offset(results, |results|)
  {
    if i > 0 {
      OffsetGrows(results[1..], i - 1);
    }
  }

  /** A detection reported twice is written twice. */
  lemma FlattenKeepsRepeats(d: Detection)
    ensures Flatten([[d], [d]]) == [d, d]
  {
    var results := [[d], [d]];
    FlattenAt(results, 0, 0);
    FlattenAt(results, 1, 0);
  }

  /** What `run` learns about one image: its size and the detector's
      results. */
  datatype Observation = Observation(width: Dim, height: Dim, results: seq<seq<Detection>>)

  /** The lines written for one image, one per detection, in order. */
  function Lines(o: Observation): (lines: seq<LabelLine>)
    ensures |lines| == |Flatten(o.results)|
    ensures forall k :: 0 <= k < |lines| ==> lines[k] == Normalize(Flatten(o.results)[k], o.width, o.height)
  {
    var ds := Flatten(o.results);
    seq(|ds|, k requires 0 <= k < |ds| => Normalize(ds[k], o.width, o.height))
  }

  datatype LabelFile = LabelFile(path: string, lines: seq<LabelLine>)

  datatype RunOutput = RunOutput(logic: Logic, files: seq<LabelFile>, count: nat)

  /** `run(image_dir, model_path, label_dir)`: `listing` is
      `os.listdir(image_dir)` and `observe(path)` the image's size and the
      detector's results for it. The files come out in the order they are
      written; two images with the same stem write the same path, the later
      overwriting the earlier. */
  function Run(l: Logic, imageDir: string, modelPath: string, labelDir: string,
               listing: seq<string>, observe: string -> Observation): (r: Result<RunOutput, LabelError>)
    ensures r.Err? <==> LoadModel(l, modelPath).Err?
    ensures r.Err? ==> r.error == ModelPathNotSet
    ensures r.Ok? ==>
              var images := ImagesToLabel(listing);
              && r.value.logic == LoadModel(l, modelPath).value
              && r.value.count == |images| == |r.value.files|
              && forall i :: 0 <= i < |images| ==>
                   && r.value.files[i].path == LabelPath(labelDir, images[i])
                   && r.value.files[i].lines == Lines(observe(Join(imageDir, images[i])))
  {
    match LoadModel(l, modelPath)
    case Err(e) => Err(e)
    case Ok(loaded) =>
      var images := ImagesToLabel(listing);
      var files := seq(|images|, i requires 0 <= i < |images| =>
                         LabelFile(LabelPath(labelDir, images[i]), Lines(observe(Join(imageDir, images[i])))));
      Ok(RunOutput(loaded, files, |images|))
  }

  /** The count `run` returns depends on the listing only, never on what the
      detector found. */
  lemma RunCountIgnoresDetections(l: Logic, imageDir: string, modelPath: string, labelDir: string,
                                  listing: seq<string>, o1: string -> Observation, o2: string -> Observation)
    requires l.model.Some? || modelPath != ""
    ensures Run(l, imageDir, modelPath, labelDir, listing, o1).Ok?
    ensures Run(l, imageDir, modelPath, labelDir, listing, o2).Ok?
    ensures Run(l, imageDir, modelPath, labelDir, listing, o1).value.count
            == Run(l, imageDir, modelPath, labelDir, listing, o2).value.count
  {
  }
}

=== FILE: canvas.dfy ===
/** `ImageCanvas`, the box-drawing widget, as an immutable state and one
    pure transition per event handler. Widget geometry (the canvas size),
    decoding an image file and the size Qt gives the scaled pixmap are
    parameters; painting itself is not modelled, only the offset it stores. */
module ImageCanvas {
  import opened Wrappers
  import opened Geometry

  datatype MouseButton = LeftButton | RightButton | MiddleButton

  datatype Modifier = ShiftModifier | ControlModifier | AltModifier | MetaModifier

  /** The factor of one zoom step. */
  const ZoomFactor: real := 1.1

  /** The widget's fields. `pixmap` is `None` both before the first load and
      after a load whose file did not decode (a null, hence false, pixmap). */
  datatype Canvas = Canvas(
    pixmap: Option<ImageSize>,
    scale: real,
    boxes: seq<Rect>,
    currentRect: Option<Rect>,
    startPos: Option<RealPoint>,
    offset: Point)

  /** What every reachable state satisfies: a positive scale, and every
      committed box normalised. */
  predicate Valid(c: Canvas) {
    && c.scale > 0.0
    && forall i :: 0 <= i < |c.boxes| ==> IsNormal(c.boxes[i])
  }

  /** The state `__init__` sets up. */
  function Init(): (c: Canvas)
    ensures Valid(c)
    ensures c.pixmap.None? && c.boxes == [] && c.currentRect.None? && c.startPos.None?
    ensures c.scale == 1.0 && c.offset == Point(0, 0)
  {
    Canvas(None, 1.0, [], None, None, Point(0, 0))
  }

  /** `load_image`: `decoded` is the decoded pixmap's size, `None` when the
      file did not decode; `canvasW`/`canvasH` the widget's size. */
  function LoadImage(c: Canvas, decoded: Option<ImageSize>, canvasW: nat, canvasH: nat): (r: Canvas)
    requires Valid(c)
    ensures Valid(r)
    ensures r.pixmap == decoded
    ensures decoded.None? ==>
              && r.scale == c.scale && r.boxes == c.boxes && r.currentRect == c.currentRect
              && r.startPos == c.startPos && r.offset == c.offset
    ensures decoded.Some? ==>
              && r.boxes == [] && r.currentRect.None? && r.startPos.None? && r.offset == Point(0, 0)
    ensures decoded.Some? && (canvasW == 0 || canvasH == 0) ==> r.scale == 1.0
    ensures decoded.Some? && canvasW > 0 && canvasH > 0 ==>
              var img := decoded.value;
              && img.width as real * r.scale <= canvasW as real
              && img.height as real * r.scale <= canvasH as real
              && (img.width as real * r.scale == canvasW as real
                  || img.height as real * r.scale == canvasH as real)
  {
    match decoded
    case None => c.(pixmap := None)
    case Some(img) =>
      Canvas(decoded, FitScale(canvasW, canvasH, img), [], None, None, Point(0, 0))
  }

  /** The offset `paintEvent` stores: the scaled pixmap centred in the
      canvas, the odd pixel going to the right/bottom margin. `scaledW` and
      `scaledH` are the size of the scaled pixmap. */
  function Paint(c: Canvas, canvasW: nat, canvasH: nat, scaledW: nat, scaledH: nat): (r: Canvas)
    requires Valid(c)
    ensures Valid(r)
    ensures c.pixmap.None? ==> r == c
    ensures c.pixmap.Some? ==>
              && r == c.(offset := r.offset)
              && 2 * r.offset.x <= canvasW - scaledW <= 2 * r.offset.x + 1
              && 2 * r.offset.y <= canvasH - scaledH <= 2 * r.offset.y + 1
  {
    if c.pixmap.None? then c
    else c.(offset := CenterOffset(canvasW, canvasH, scaledW, scaledH))
  }

  /** `mousePressEvent`: a left press on a loaded image records where, in
      image coordinates, the drag starts. */
  function MousePress(c: Canvas, button: MouseButton, pos: Point): (r: Canvas)
    requires Valid(c)
    ensures Valid(r)
    ensures c.pixmap.None? || button != LeftButton ==> r == c
    ensures c.pixmap.Some? && button == LeftButton ==>
              && r == c.(startPos := r.startPos)
              && r.startPos.Some?
              && ToCanvas(r.startPos.value, c.offset, c.scale) == ToReal(pos)
  {
    if c.pixmap.None? || button != LeftButton then c
    else
      var start := MapToImage(ToReal(pos), c.offset, c.scale);
      ToCanvasUndoesMapToImage(ToReal(pos), c.offset, c.scale);
      c.(startPos := Some(start))
  }

  /** The in-progress rectangle from the drag start to the cursor at `pos`,
      both rounded to integer image pixels. */
  function DragRect(start: RealPoint, pos: Point, offset: Point, scale: real): (rect: Rect)
    requires scale > 0.0
    ensures rect.left as real - 0.5 <= start.x < rect.left as real + 0.5
    ensures rect.top as real - 0.5 <= start.y < rect.top as real + 0.5
    ensures (rect.right as real - 0.5) * scale <= (pos.x - offset.x) as real
    ensures (pos.x - offset.x) as real < (rect.right as real + 0.5) * scale
    ensures (rect.bottom as real - 0.5) * scale <= (pos.y - offset.y) as real
    ensures (pos.y - offset.y) as real < (rect.bottom as real + 0.5) * scale
  {
    var q := MapToImage(ToReal(pos), offset, scale);
    var e := ToPoint(q);
    RoundingWindowScales(q.x, e.x, scale, (pos.x - offset.x) as real);
    RoundingWindowScales(q.y, e.y, scale, (pos.y - offset.y) as real);
    FromCorners(ToPoint(start), e)
  }

  /** A rounding window in image pixels, scaled, is one in canvas pixels. */
  lemma RoundingWindowScales(v: real, n: int, scale: real, d: real)
    requires scale > 0.0 && v * scale == d
    requires n as real - 0.5 <= v < n as real + 0.5
    ensures (n as real - 0.5) * scale <= d < (n as real + 0.5) * scale
  {
    var below, above := v - (n as real - 0.5), (n as real + 0.5) - v;
    assert below * scale >= 0.0;
    assert above * scale > 0.0;
    assert below * scale == d - (n as real - 0.5) * scale;
    assert above * scale == (n as real + 0.5) * scale - d;
  }

  /** `mouseMoveEvent` as written: the guard `if self.start_pos:` is PyQt's
      truth value of a point, which is false for the null point, so a drag
      that starts exactly at the image origin never draws a rectangle. */
  function MouseMoveAsWritten(c: Canvas, pos: Point): (r: Canvas)
    requires Valid(c)
    ensures Valid(r)
    ensures c.startPos.None? || IsNullPoint(c.startPos.value) ==> r == c
    ensures c.startPos.Some? && !IsNullPoint(c.startPos.value) ==>
              r == c.(currentRect := Some(DragRect(c.startPos.value, pos, c.offset, c.scale)))
  {
    if c.startPos.Some? && !IsNullPoint(c.startPos.value) then
      c.(currentRect := Some(DragRect(c.startPos.value, pos, c.offset, c.scale)))
    else c
  }

  /** `mouseMoveEvent` with the guard the code evidently intends, "a drag
      has started": a move while dragging replaces only the in-progress
      rectangle; any other move changes nothing. */
  function MouseMove(c: Canvas, pos: Point): (r: Canvas)
    requires Valid(c)
    ensures Valid(r)
    ensures c.startPos.None? ==> r == c
    ensures c.startPos.Some? ==>
              && r == c.(currentRect := r.currentRect)
              && r.currentRect.Some?
              && Point(r.currentRect.value.left, r.currentRect.value.top) == ToPoint(c.startPos.value)
              && Point(r.currentRect.value.right, r.currentRect.value.bottom)
                 == ToPoint(MapToImage(ToReal(pos), c.offset, c.scale))
  {
    if c.startPos.Some? then
      c.(currentRect := Some(DragRect(c.startPos.value, pos, c.offset, c.scale)))
    else c
  }

  /** `mouseReleaseEvent`: a non-null in-progress rectangle is committed,
      normalised, after the existing boxes; the drag state is always
      cleared. */
  function MouseRelease(c: Canvas): (r: Canvas)
    requires Valid(c)
    ensures Valid(r)
    ensures r.startPos.None? && r.currentRect.None?
    ensures r.pixmap == c.pixmap && r.scale == c.scale && r.offset == c.offset
    ensures |c.boxes| <= |r.boxes| <= |c.boxes| + 1
    ensures r.boxes[..|c.boxes|] == c.boxes
    ensures |r.boxes| == |c.boxes| + 1 <==> c.currentRect.Some? && !IsNullRect(c.currentRect.value)
    ensures |r.boxes| == |c.boxes| + 1 ==> r.boxes[|c.boxes|] == Normalized(c.currentRect.value)
  {
    var boxes := if c.currentRect.Some? && !IsNullRect(c.currentRect.value)
                 then c.boxes + [Normalized(c.currentRect.value)]
                 else c.boxes;
    c.(boxes := boxes, currentRect := None, startPos := None)
  }

  /** `zoom_in`: one step closer, with no upper bound. */
  function ZoomIn(c: Canvas): (r: Canvas)
    requires Valid(c)
    ensures Valid(r)
    ensures r == c.(scale := r.scale)
    ensures r.scale == c.scale * ZoomFactor && r.scale > c.scale
  {
    c.(scale := c.scale * ZoomFactor)
  }

  /** `zoom_out`: one step back, with no lower bound other than zero. */
  function ZoomOut(c: Canvas): (r: Canvas)
    requires Valid(c)
    ensures Valid(r)
    ensures r == c.(scale := r.scale)
    ensures r.scale * ZoomFactor == c.scale && 0.0 < r.scale < c.scale
  {
    c.(scale := c.scale / ZoomFactor)
  }

  /** Zooming out undoes zooming in, and the other way round. */
  lemma ZoomRoundTrip(c: Canvas)
    requires Valid(c)
    ensures ZoomOut(ZoomIn(c)) == c
    ensures ZoomIn(ZoomOut(c)) == c
  {
  }

  /** `wheelEvent`: with Ctrl held, a wheel turned away from the user zooms
      in and any other turn (a zero vertical delta included) zooms out;
      without Ctrl the event is ignored. */
  function Wheel(c: Canvas, modifiers: set<Modifier>, deltaY: int): (r: Canvas)
    requires Valid(c)
    ensures Valid(r)
    ensures ControlModifier !in modifiers ==> r == c
    ensures ControlModifier in modifiers && deltaY > 0 ==> r == ZoomIn(c)
    ensures ControlModifier in modifiers && deltaY <= 0 ==> r == ZoomOut(c)
    ensures r == c.(scale := r.scale)
  {
    if ControlModifier in modifiers then
      if deltaY > 0 then ZoomIn(c) else ZoomOut(c)
    else c
  }

  /** With Ctrl held, one wheel step up and one down, in either order,
      leave the canvas as it was. */
  lemma WheelRoundTrip(c: Canvas, modifiers: set<Modifier>, up: int, down: int)
    requires Valid(c) && up > 0 && down <= 0
    ensures Wheel(Wheel(c, modifiers, up), modifiers, down) == c
    ensures Wheel(Wheel(c, modifiers, down), modifiers, up) == c
  {
    if ControlModifier in modifiers {
      ZoomRoundTrip(c);
    }
  }

  /** With the corrected guard, a full left-button drag on a loaded image,
      press at `p`, move to `q`, release, appends exactly the normalised
      rectangle between the two rounded image positions, unless Qt counts
      that rectangle as null. */
  lemma DragAppendsBox(c: Canvas, p: Point, q: Point)
    requires Valid(c) && c.pixmap.Some? && c.currentRect.None? && c.startPos.None?
    ensures var rect := FromCorners(ToPoint(MapToImage(ToReal(p), c.offset, c.scale)),
                                    ToPoint(MapToImage(ToReal(q), c.offset, c.scale)));
            var r := MouseRelease(MouseMove(MousePress(c, LeftButton, p), q));
            && r.boxes == (if IsNullRect(rect) then c.boxes else c.boxes + [Normalized(rect)])
            && r == c.(boxes := r.boxes)
  {
    var rect := FromCorners(ToPoint(MapToImage(ToReal(p), c.offset, c.scale)),
                            ToPoint(MapToImage(ToReal(q), c.offset, c.scale)));
    var c1 := MousePress(c, LeftButton, p);
    assert c1 == c.(startPos := Some(MapToImage(ToReal(p), c.offset, c.scale)));
    var c2 := MouseMove(c1, q);
    assert c2 == c.(startPos := c1.startPos, currentRect := Some(rect));
    var c3 := MouseRelease(c2);
    assert c3.boxes == (if IsNullRect(rect) then c.boxes else c.boxes + [Normalized(rect)]);
  }

  /** The same gesture through the code as written: it draws what the
      corrected handler draws, except that a press exactly on the image
      origin (the canvas point `offset`) commits nothing at all. */
  lemma DragAppendsBoxAsWritten(c: Canvas, p: Point, q: Point)
    requires Valid(c) && c.pixmap.Some? && c.currentRect.None? && c.startPos.None?
    ensures var rect := FromCorners(ToPoint(MapToImage(ToReal(p), c.offset, c.scale)),
                                    ToPoint(MapToImage(ToReal(q), c.offset, c.scale)));
            var r := MouseRelease(MouseMoveAsWritten(MousePress(c, LeftButton, p), q));
            && r.boxes == (if p == c.offset || IsNullRect(rect) then c.boxes
                           else c.boxes + [Normalized(rect)])
            && r == c.(boxes := r.boxes)
  {
    var start := MapToImage(ToReal(p), c.offset, c.scale);
    var c1 := MousePress(c, LeftButton, p);
    assert c1 == c.(startPos := Some(start));
    if p == c.offset {
      assert start.x * c.scale == 0.0 && start.y * c.scale == 0.0;
      assert IsNullPoint(start);
      assert MouseMoveAsWritten(c1, q) == c1;
    } else {
      assert start.x * c.scale != 0.0 || start.y * c.scale != 0.0;
      assert !IsNullPoint(start);
      assert MouseMoveAsWritten(c1, q) == MouseMove(c1, q);
      DragAppendsBox(c, p, q);
    }
  }

  /** The code as written: pressing exactly on the image origin (the canvas
      point `offset`) and dragging anywhere commits nothing. */
  lemma OriginPressDrawsNothing(c: Canvas, q: Point)
    requires Valid(c) && c.pixmap.Some? && c.currentRect.None? && c.startPos.None?
    ensures MouseRelease(MouseMoveAsWritten(MousePress(c, LeftButton, c.offset), q)).boxes == c.boxes
  {
    var c1 := MousePress(c, LeftButton, c.offset);
    assert IsNullPoint(c1.startPos.value);
  }

  /** The intended behaviour: the same gesture commits a box whose corner is
      the image origin. */
  lemma OriginPressDrawsBox(c: Canvas)
    requires Valid(c) && c.pixmap.Some? && c.currentRect.None? && c.startPos.None?
    ensures var q := Point(c.offset.x + 10, c.offset.y + 10);
            var end := ToPoint(MapToImage(ToReal(q), c.offset, c.scale));
            var boxes := MouseRelease(MouseMove(MousePress(c, LeftButton, c.offset), q)).boxes;
            boxes == c.boxes + [Rect(0, 0, end.x, end.y)]
  {
    var q := Point(c.offset.x + 10, c.offset.y + 10);
    var start := MapToImage(ToReal(c.offset), c.offset, c.scale);
    var end := MapToImage(ToReal(q), c.offset, c.scale);
    assert start.x * c.scale == 0.0 && start.y * c.scale == 0.0;
    assert start == RealPoint(0.0, 0.0);
    assert ToPoint(start) == Point(0, 0);
    assert end.x * c.scale == 10.0 && end.y * c.scale == 10.0;
    assert end.x > 0.0 && end.y > 0.0;
    var e := ToPoint(end);
    assert e.x >= 0 && e.y >= 0;
    var rect := FromCorners(ToPoint(start), e);
    assert rect == Rect(0, 0, e.x, e.y);
    assert !IsNullRect(rect) && Normalized(rect) == rect;
    DragAppendsBox(c, c.offset, q);
  }
}

=== FILE: edit.dfy ===
/** `EditLib`'s Undo and Redo menu actions, which act directly on the
    canvas's box list: there is no history, so Undo drops the newest box and
    Redo duplicates it. */
module Edit {
  import opened Geometry
  import ImageCanvas

  /** `undo`: pop the last box, if any. */
  function Undo<T>(boxes: seq<T>): (r: seq<T>)
    ensures boxes == [] ==> r == []
    ensures boxes != [] ==> |r| == |boxes| - 1 && boxes == r + [boxes[|boxes| - 1]]
  {
    if boxes == [] then boxes else boxes[..|boxes| - 1]
  }

  /** `redo`: append the current last box again, if any. */
  function Redo<T>(boxes: seq<T>): (r: seq<T>)
    ensures boxes == [] ==> r == []
    ensures boxes != [] ==> |r| == |boxes| + 1 && r[..|boxes|] == boxes && r[|boxes|] == boxes[|boxes| - 1]
    ensures forall i :: 0 <= i < |r| ==> r[i] in boxes
  {
    if boxes == [] then boxes else boxes + [boxes[|boxes| - 1]]
  }

  /** Redo followed by Undo gives back the list. */
  lemma UndoAfterRedo<T>(boxes: seq<T>)
    ensures Undo(Redo(boxes)) == boxes
  {
  }

  /** Undo followed by Redo does not restore the undone box: it duplicates
      the one before it. */
  lemma RedoAfterUndo<T>(prefix: seq<T>, a: T, b: T)
    ensures Redo(Undo(prefix + [a, b])) == prefix + [a, a]
  {
    assert Undo(prefix + [a, b]) == prefix + [a];
  }

  lemma RedoDoesNotRestore<T>(prefix: seq<T>, a: T, b: T)
    requires a != b
    ensures Redo(Undo(prefix + [a, b])) != prefix + [a, b]
  {
    RedoAfterUndo(prefix, a, b);
    assert (prefix + [a, a])[|prefix| + 1] == a;
  }

  /** `n` Undos drop the `n` newest boxes (all of them when there are fewer). */
  function UndoTimes<T>(boxes: seq<T>, n: nat): seq<T> {
    if n == 0 then boxes else UndoTimes(Undo(boxes), n - 1)
  }

  lemma {:induction false} UndoTimesDropsNewest<T>(boxes: seq<T>, n: nat)
    ensures n <= |boxes| ==> UndoTimes(boxes, n) == boxes[..|boxes| - n]
    ensures n > |boxes| ==> UndoTimes(boxes, n) == []
  {
    if n > 0 {
      UndoTimesDropsNewest(Undo(boxes), n - 1);
      if boxes != [] && n <= |boxes| {
        assert Undo(boxes)[..|boxes| - n] == boxes[..|boxes| - n];
      }
    }
  }

  /** Undo and Redo keep the canvas's invariant: they only drop or copy
      boxes that were committed normalised. */
  lemma EditKeepsCanvasValid(c: ImageCanvas.Canvas)
    requires ImageCanvas.Valid(c)
    ensures ImageCanvas.Valid(c.(boxes := Undo(c.boxes)))
    ensures ImageCanvas.Valid(c.(boxes := Redo(c.boxes)))
  {
    var r := Redo(c.boxes);
    forall i | 0 <= i < |r| ensures IsNormal(r[i]) {
      if i < |c.boxes| { assert r[i] == c.boxes[i]; } else { assert r[i] == c.boxes[|c.boxes| - 1]; }
    }
  }
}

=== FILE: files.dfy ===
/** `FileLib.load_images`: the image files of a folder, as full paths in
    sorted order. The directory listing `os.listdir(folder)` is an input. */
module Files {
  import opened Text
  import opened Paths
  import opened Order

  /** `FileLib.IMAGE_EXTS`. */
  const ImageExts: seq<string> := [".jpg", ".jpeg", ".png", ".bmp"]

  /** `os.path.join(folder, f)` for every `f` of `names`, in order. */
  function JoinAll(folder: string, names: seq<string>): (r: seq<string>)
    ensures |r| == |names|
    ensures forall k :: 0 <= k < |names| ==> r[k] == Join(folder, names[k])
  {
    if names == [] then [] else [Join(folder, names[0])] + JoinAll(folder, names[1..])
  }

  /** `s` with the element at index `k` taken out. */
  function Without(s: seq<string>, k: nat): (r: seq<string>)
    requires k < |s|
    ensures |r| == |s| - 1
  {
    if k == 0 then s[1..] else [s[0]] + Without(s[1..], k - 1)
  }

  lemma {:induction false} WithoutRemoves(s: seq<string>, k: nat)
    requires k < |s|
    ensures multiset(Without(s, k)) == multiset(s) - multiset{s[k]}
  {
    assert s == [s[0]] + s[1..];
    if k > 0 {
      WithoutRemoves(s[1..], k - 1);
    }
  }

  lemma {:induction false} JoinAllWithout(folder: string, s: seq<string>, k: nat)
    requires k < |s|
    ensures JoinAll(folder, Without(s, k)) == Without(JoinAll(folder, s), k)
  {
    if k > 0 {
      JoinAllWithout(folder, s[1..], k - 1);
      assert JoinAll(folder, s)[1..] == JoinAll(folder, s[1..]);
    }
  }

  lemma {:induction false} FindIndex(s: seq<string>, x: string) returns (k: nat)
    requires x in multiset(s)
    ensures k < |s| && s[k] == x
  {
    if s[0] == x {
      k := 0;
    } else {
      assert s == [s[0]] + s[1..];
      var j := FindIndex(s[1..], x);
      k := j + 1;
    }
  }

  lemma PutBack(ma: multiset<string>, mb: multiset<string>, y: string)
    requires y in ma && y in mb
    requires ma - multiset{y} == mb - multiset{y}
    ensures ma == mb
  {
    assert ma == (ma - multiset{y}) + multiset{y};
    assert mb == (mb - multiset{y}) + multiset{y};
  }

  /** Joining does not depend on the order of the names beyond reordering
      the paths the same way. */
  lemma {:induction false} JoinAllPermutes(folder: string, a: seq<string>, b: seq<string>)
    requires multiset(a) == multiset(b)
    ensures multiset(JoinAll(folder, a)) == multiset(JoinAll(folder, b))
    decreases |a|
  {
    if a != [] {
      var k := FindIndex(b, a[0]);
      WithoutRemoves(a, 0);
      WithoutRemoves(b, k);
      JoinAllPermutes(folder, Without(a, 0), Without(b, k));
      JoinAllWithout(folder, a, 0);
      JoinAllWithout(folder, b, k);
      WithoutRemoves(JoinAll(folder, a), 0);
      WithoutRemoves(JoinAll(folder, b), k);
      PutBack(multiset(JoinAll(folder, a)), multiset(JoinAll(folder, b)), Join(folder, a[0]));
    } else {
      assert |b| == |multiset(b)| == 0;
    }
  }

  /** A path whose last component has an image extension has one itself. */
  lemma HasExtOfJoin(folder: string, name: string, exts: seq<string>)
    requires HasExt(name, exts)
    ensures HasExt(Join(folder, name), exts)
  {
    var p := Join(folder, name);
    var e :| e in exts && EndsWith(Lower(name), e);
    assert p[|p| - |name|..] == name;
    assert Lower(p)[|p| - |name|..] == Lower(name);
    assert Lower(p)[|p| - |e|..] == Lower(name)[|name| - |e|..];
    assert EndsWith(Lower(p), e);
  }

  /** The listed image names of a folder, joined to it and sorted. */
  function SortedImagePaths(folder: string, listing: seq<string>): (r: seq<string>)
    ensures Sorted(r)
    ensures multiset(r) == multiset(JoinAll(folder, SelectByExt(listing, ImageExts)))
  {
    Sort(JoinAll(folder, SelectByExt(listing, ImageExts)))
  }

  lemma SortedImagePathsSound(folder: string, listing: seq<string>)
    ensures var r := SortedImagePaths(folder, listing);
            forall k :: 0 <= k < |r| ==>
              && HasExt(r[k], ImageExts)
              && exists n :: n in listing && HasExt(n, ImageExts) && r[k] == Join(folder, n)
  {
    var names := SelectByExt(listing, ImageExts);
    var paths := JoinAll(folder, names);
    var r := SortedImagePaths(folder, listing);
    forall k | 0 <= k < |r|
      ensures HasExt(r[k], ImageExts)
      ensures exists n :: n in listing && HasExt(n, ImageExts) && r[k] == Join(folder, n)
    {
      assert r[k] in multiset(paths);
      var j :| 0 <= j < |paths| && paths[j] == r[k];
      assert names[j] in names;
      HasExtOfJoin(folder, names[j], ImageExts);
    }
  }

  lemma SortedImagePathsComplete(folder: string, listing: seq<string>)
    ensures var r := SortedImagePaths(folder, listing);
            && |r| == |SelectByExt(listing, ImageExts)|
            && forall n :: n in listing && HasExt(n, ImageExts) ==> Join(folder, n) in r
  {
    var names := SelectByExt(listing, ImageExts);
    var paths := JoinAll(folder, names);
    var r := SortedImagePaths(folder, listing);
    assert |r| == |multiset(r)| == |multiset(paths)| == |paths|;
    forall n | n in listing && HasExt(n, ImageExts)
      ensures Join(folder, n) in r
    {
      var j :| 0 <= j < |names| && names[j] == n;
      assert paths[j] in multiset(r);
    }
  }

  /** `FileLib.load_images(folder)`. */
  function LoadImages(folder: string, listing: seq<string>): (r: seq<string>)
    ensures folder == [] ==> r == []
    ensures Sorted(r)
    ensures folder != [] ==> |r| == |SelectByExt(listing, ImageExts)|
    ensures forall k :: 0 <= k < |r| ==> HasExt(r[k], ImageExts)
    ensures forall k :: 0 <= k < |r| ==>
              exists n :: n in listing && HasExt(n, ImageExts) && r[k] == Join(folder, n)
    ensures folder != [] ==>
              forall n :: n in listing && HasExt(n, ImageExts) ==> Join(folder, n) in r
  {
    if folder == [] then []
    else
      SortedImagePathsSound(folder, listing);
      SortedImagePathsComplete(folder, listing);
      SortedImagePaths(folder, listing)
  }

  /** The result does not depend on the order `os.listdir` lists the folder
      in. */
  lemma LoadImagesIgnoresListingOrder(folder: string, a: seq<string>, b: seq<string>)
    requires multiset(a) == multiset(b)
    ensures LoadImages(folder, a) == LoadImages(folder, b)
  {
    if folder != [] {
      var na := SelectByExt(a, ImageExts);
      var nb := SelectByExt(b, ImageExts);
      assert forall n :: multiset(na)[n] == multiset(nb)[n];
      assert multiset(na) == multiset(nb);
      JoinAllPermutes(folder, na, nb);
      SortIgnoresOrder(JoinAll(folder, na), JoinAll(folder, nb));
    }
  }

  /** Matching ignores case: a listed "A.JPG" is loaded. */
  lemma UpperCaseNameIsLoaded(folder: string, listing: seq<string>)
    requires folder != [] && "A.JPG" in listing
    ensures Join(folder, "A.JPG") in LoadImages(folder, listing)
  {
    assert Lower("A.JPG") == "a.jpg" && EndsWith("a.jpg", ImageExts[0]);
  }

  /** Upper-case names sort before lower-case ones: Python compares code
      points. */
  lemma SortExample()
    ensures Sort(["shots/b.png", "shots/A.JPG"]) == ["shots/A.JPG", "shots/b.png"]
  {
    var expected := ["shots/A.JPG", "shots/b.png"];
    assert LexLe("shots/A.JPG", "shots/b.png");
    assert Sorted(expected);
    var paths := ["shots/b.png", "shots/A.JPG"];
    assert multiset(paths) == multiset(expected);
    SortedUnique(Sort(paths), expected);
  }
}

=== FILE: geometry.dfy ===
/** The canvas geometry: Qt's integer points and rectangles, real points for
    image coordinates, and the view transform between image pixels and canvas
    pixels (a uniform `scale` followed by an integer `offset`). */
module Geometry {
  import opened Numbers

  /** A `QPoint`. */
  datatype Point = Point(x: int, y: int)

  /** A `QPointF`; the source's image-space positions. */
  datatype RealPoint = RealPoint(x: real, y: real)

  /** A `QRect`, stored as Qt stores it: the corners (x1, y1) and (x2, y2).
      Qt's width is `x2 - x1 + 1`, so a rectangle whose corners coincide is
      one pixel wide. */
  datatype Rect = Rect(left: int, top: int, right: int, bottom: int) {
    function Width(): int { right - left + 1 }
    function Height(): int { bottom - top + 1 }
  }

  type Dim = n: int | n > 0 witness 1

  /** The size of a decoded (non-null) `QPixmap`. */
  datatype ImageSize = ImageSize(width: Dim, height: Dim)

  function ToReal(p: Point): RealPoint {
    RealPoint(p.x as real, p.y as real)
  }

  /** PyQt's truth value of a point: the null point (0, 0) is false. */
  predicate IsNullPoint(p: RealPoint) {
    p.x == 0.0 && p.y == 0.0
  }

  /** PyQt's truth value of a rectangle: `QRect.isNull()`, width and height
      both zero, is false. */
  predicate IsNullRect(r: Rect) {
    r.Width() == 0 && r.Height() == 0
  }

  /** A rectangle is null exactly when its second corner lies one pixel
      before the first on both axes, so no normal rectangle is null: a
      committed box is never dropped by the truth test. */
  lemma NullRectCorners(r: Rect)
    ensures IsNullRect(r) <==> r.right == r.left - 1 && r.bottom == r.top - 1
    ensures IsNormal(r) ==> !IsNullRect(r)
  {
  }

  /** `QPointF.toPoint()`: each coordinate rounded to the nearest integer. */
  function ToPoint(p: RealPoint): (q: Point)
    ensures q.x as real - 0.5 <= p.x < q.x as real + 0.5
    ensures q.y as real - 0.5 <= p.y < q.y as real + 0.5
  {
    Point(Round(p.x), Round(p.y))
  }

  /** `QRect(topLeft, bottomRight)`. */
  function FromCorners(a: Point, b: Point): Rect {
    Rect(a.x, a.y, b.x, b.y)
  }

  predicate IsNormal(r: Rect) {
    r.left <= r.right && r.top <= r.bottom
  }

  /** `QRect.normalized()`: the same two corners, reordered so that the first
      is the top-left and the second the bottom-right. */
  function Normalized(r: Rect): (n: Rect)
    ensures IsNormal(n)
    ensures {n.left, n.right} == {r.left, r.right}
    ensures {n.top, n.bottom} == {r.top, r.bottom}
    ensures IsNormal(r) ==> n == r
  {
    Rect(if r.left <= r.right then r.left else r.right,
         if r.top <= r.bottom then r.top else r.bottom,
         if r.left <= r.right then r.right else r.left,
         if r.top <= r.bottom then r.bottom else r.top)
  }

  /** The normalised rectangle spanned by two corners does not depend on
      which corner came first: dragging up-left gives the same box as
      dragging down-right between the same points. */
  lemma NormalizedSymmetric(a: Point, b: Point)
    ensures Normalized(FromCorners(a, b)) == Normalized(FromCorners(b, a))
  {
  }

  /** `ImageCanvas.map_to_image`: a canvas position to image coordinates. */
  function MapToImage(pos: RealPoint, offset: Point, scale: real): (q: RealPoint)
    requires scale > 0.0
    ensures q.x * scale + offset.x as real == pos.x
    ensures q.y * scale + offset.y as real == pos.y
  {
    RealPoint((pos.x - offset.x as real) / scale, (pos.y - offset.y as real) / scale)
  }

  /** The position part of `ImageCanvas.map_to_canvas` before `int()`:
      image coordinates to canvas coordinates. */
  function ToCanvas(p: RealPoint, offset: Point, scale: real): RealPoint {
    RealPoint(p.x * scale + offset.x as real, p.y * scale + offset.y as real)
  }

  /** Over the reals the two transforms are inverse to each other. */
  lemma MapToImageUndoesToCanvas(p: RealPoint, offset: Point, scale: real)
    requires scale > 0.0
    ensures MapToImage(ToCanvas(p, offset, scale), offset, scale) == p
  {
    var q := MapToImage(ToCanvas(p, offset, scale), offset, scale);
    assert q.x * scale == p.x * scale;
    assert q.y * scale == p.y * scale;
  }

  lemma ToCanvasUndoesMapToImage(pos: RealPoint, offset: Point, scale: real)
    requires scale > 0.0
    ensures ToCanvas(MapToImage(pos, offset, scale), offset, scale) == pos
  {
  }

  /** `ImageCanvas.map_to_canvas`: an image rectangle to the canvas rectangle
      `QRect(int(x), int(y), int(w), int(h))`, each value truncated toward
      zero by Python's `int()`. */
  function MapToCanvas(r: Rect, offset: Point, scale: real): (c: Rect)
    ensures IsTruncation(c.left, ToCanvas(ToReal(Point(r.left, r.top)), offset, scale).x)
    ensures IsTruncation(c.top, ToCanvas(ToReal(Point(r.left, r.top)), offset, scale).y)
    ensures IsTruncation(c.Width(), r.Width() as real * scale)
    ensures IsTruncation(c.Height(), r.Height() as real * scale)
  {
    var x := r.left as real * scale + offset.x as real;
    var y := r.top as real * scale + offset.y as real;
    var w := r.Width() as real * scale;
    var h := r.Height() as real * scale;
    Rect(Trunc(x), Trunc(y), Trunc(x) + Trunc(w) - 1, Trunc(y) + Trunc(h) - 1)
  }

  /** `int()` is not `floor`: a box starting half a canvas pixel left of the
      canvas edge is drawn from column 0, not from column -1. */
  lemma MapToCanvasTruncatesTowardZero()
    ensures MapToCanvas(Rect(-1, 0, 0, 0), Point(0, 0), 0.5).left == 0
  {
  }

  /** The fit-to-window scale `ImageCanvas.load_image` computes. */
  function FitScale(canvasW: nat, canvasH: nat, image: ImageSize): (s: real)
    ensures s > 0.0
    ensures canvasW == 0 || canvasH == 0 ==> s == 1.0
    ensures canvasW > 0 && canvasH > 0 ==>
              && image.width as real * s <= canvasW as real
              && image.height as real * s <= canvasH as real
              && (image.width as real * s == canvasW as real || image.height as real * s == canvasH as real)
  {
    if canvasW == 0 || canvasH == 0 then 1.0
    else
      var sx := canvasW as real / image.width as real;
      var sy := canvasH as real / image.height as real;
      assert image.width as real * sx == canvasW as real;
      assert image.height as real * sy == canvasH as real;
      if sx <= sy then
        assert image.height as real * sx <= image.height as real * sy;
        sx
      else
        assert image.width as real * sy <= image.width as real * sx;
        sy
  }

  /** The fit scale is the largest scale at which the whole image fits the
      canvas. */
  lemma FitScaleIsLargest(canvasW: nat, canvasH: nat, image: ImageSize, s: real)
    requires canvasW > 0 && canvasH > 0
    requires image.width as real * s <= canvasW as real
    requires image.height as real * s <= canvasH as real
    ensures s <= FitScale(canvasW, canvasH, image)
  {
    var f := FitScale(canvasW, canvasH, image);
    if image.width as real * f == canvasW as real {
      assert image.width as real * s <= image.width as real * f;
    } else {
      assert image.height as real * s <= image.height as real * f;
    }
  }

  /** The offset `paintEvent` computes: `(canvas - scaled) // 2` per axis,
      Python's floor division. */
  function CenterOffset(canvasW: int, canvasH: int, scaledW: int, scaledH: int): (o: Point)
    ensures 2 * o.x <= canvasW - scaledW <= 2 * o.x + 1
    ensures 2 * o.y <= canvasH - scaledH <= 2 * o.y + 1
  {
    Point((canvasW - scaledW) / 2, (canvasH - scaledH) / 2)
  }
}

=== FILE: new_label.dfy ===
/** `NewLabelDialog`: a line edit whose stripped text becomes the new label's
    name, provided it is not blank. */
module NewLabelDialog {
  import opened Wrappers
  import opened Text

  datatype Dialog = Dialog(name: Option<string>, accepted: bool)

  /** `__init__`: no name yet. */
  function Open(): (d: Dialog)
    ensures d.name.None? && !d.accepted
  {
    Dialog(None, false)
  }

  /** `accept_label`; `input` is the line edit's text. */
  function AcceptLabel(d: Dialog, input: string): (r: Dialog)
    ensures AllSpace(input) ==> r == d
    ensures !AllSpace(input) ==> r.accepted && r.name == Some(Strip(input))
  {
    var text := Strip(input);
    if text != [] then Dialog(Some(text), true) else d
  }

  /** An accepted name is not blank and has no surrounding whitespace, so
      stripping it again changes nothing. */
  lemma AcceptedNameIsClean(input: string)
    requires AcceptLabel(Open(), input).accepted
    ensures var name := AcceptLabel(Open(), input).name;
            && name.Some? && name.value != [] && !IsSpace(name.value[0])
            && Strip(name.value) == name.value
  {
    StripIdempotent(input);
  }
}

=== FILE: numbers.dfy ===
/** The two real-to-integer conversions the source relies on: Qt's `qRound`
    (used by `QPointF.toPoint()`) and Python's `int()` on a float, which
    truncates toward zero. */
module Numbers {

  /** True iff `n` is `v` truncated toward zero. */
  predicate IsTruncation(n: int, v: real) {
    && (v >= 0.0 ==> n as real <= v < n as real + 1.0)
    && (v < 0.0 ==> n as real - 1.0 < v <= n as real)
  }

  /** Python's `int(v)` for a finite float. */
  function Trunc(v: real): (n: int)
    ensures IsTruncation(n, v)
    ensures (if n < 0 then -n else n) as real <= (if v < 0.0 then -v else v)
  {
    if v >= 0.0 then v.Floor else -((-v).Floor)
  }

  /** There is only one truncation of a value. */
  lemma TruncationUnique(n: int, m: int, v: real)
    requires IsTruncation(n, v) && IsTruncation(m, v)
    ensures n == m
  {
  }

  /** Qt's `qRound`: the nearest integer, halves rounded up. */
  function Round(v: real): (n: int)
    ensures n as real - 0.5 <= v < n as real + 0.5
  {
    (v + 0.5).Floor
  }

  /** Truncation and flooring differ on every negative non-integer. */
  lemma TruncIsNotFloor(v: real)
    requires v < 0.0 && v != v.Floor as real
    ensures Trunc(v) == v.Floor + 1
  {
  }
}

=== FILE: order.dfy ===
/** Python's `sorted()` on a list of `str`: strings compare lexicographically
    by code point, a proper prefix sorting first. */
module Order {

  /** Python's `a <= b` on `str`. */
  predicate LexLe(a: string, b: string) {
    |a| == 0 || (|b| > 0 && (a[0] < b[0] || (a[0] == b[0] && LexLe(a[1..], b[1..]))))
  }

  lemma {:induction false} LexLeReflexive(a: string)
    ensures LexLe(a, a)
  {
    if |a| > 0 {
      LexLeReflexive(a[1..]);
    }
  }

  lemma {:induction false} LexLeTotal(a: string, b: string)
    ensures LexLe(a, b) || LexLe(b, a)
  {
    if |a| > 0 && |b| > 0 && a[0] == b[0] {
      LexLeTotal(a[1..], b[1..]);
    }
  }

  lemma {:induction false} LexLeAntisymmetric(a: string, b: string)
    requires LexLe(a, b) && LexLe(b, a)
    ensures a == b
  {
    if |a| > 0 && |b| > 0 {
      LexLeAntisymmetric(a[1..], b[1..]);
      assert a == [a[0]] + a[1..] && b == [b[0]] + b[1..];
    }
  }

  lemma {:induction false} LexLeTransitive(a: string, b: string, c: string)
    requires LexLe(a, b) && LexLe(b, c)
    ensures LexLe(a, c)
  {
    if |a| > 0 && a[0] == b[0] && b[0] == c[0] {
      LexLeTransitive(a[1..], b[1..], c[1..]);
    }
  }

  predicate Sorted(s: seq<string>) {
    forall i, j :: 0 <= i < j < |s| ==> LexLe(s[i], s[j])
  }

  /** Puts `x` into its place in the sorted list `s`. */
  function Insert(x: string, s: seq<string>): (r: seq<string>)
    requires Sorted(s)
    ensures Sorted(r)
    ensures multiset(r) == multiset(s) + multiset{x}
    ensures forall y :: y in r ==> y == x || y in s
  {
    if s == [] then [x]
    else if LexLe(x, s[0]) then
      assert forall j :: 0 <= j < |s| ==> LexLe(x, s[j]) by {
        forall j | 0 <= j < |s|
          ensures LexLe(x, s[j])
        {
          if j > 0 { LexLeTransitive(x, s[0], s[j]); }
        }
      }
      [x] + s
    else
      var t := Insert(x, s[1..]);
      LexLeTotal(x, s[0]);
      assert forall y :: y in t ==> LexLe(s[0], y);
      assert s == [s[0]] + s[1..];
      [s[0]] + t
  }

  /** Insertion sort: the sorted rearrangement of `s`. */
  function Sort(s: seq<string>): (r: seq<string>)
    ensures Sorted(r)
    ensures multiset(r) == multiset(s)
  {
    if s == [] then []
    else
      assert s == [s[0]] + s[1..];
      Insert(s[0], Sort(s[1..]))
  }

  /** The head of a sorted list is at most each of its elements. */
  lemma SortedHeadIsLeast(a: seq<string>, y: string)
    requires Sorted(a) && y in a
    ensures LexLe(a[0], y)
  {
    var k :| 0 <= k < |a| && a[k] == y;
    if k == 0 { LexLeReflexive(y); }
  }

  /** Two sorted lists with the same elements are equal: the result of
      `sorted()` depends only on which strings there are, not on their order. */
  lemma {:induction false} SortedUnique(a: seq<string>, b: seq<string>)
    requires Sorted(a) && Sorted(b)
    requires multiset(a) == multiset(b)
    ensures a == b
    decreases |a|
  {
    assert |a| == |multiset(a)| == |multiset(b)| == |b|;
    if |a| > 0 {
      assert a[0] in multiset(b) && b[0] in multiset(a);
      SortedHeadIsLeast(b, a[0]);
      SortedHeadIsLeast(a, b[0]);
      LexLeAntisymmetric(a[0], b[0]);
      TailsSameElements(a, b);
      SortedUnique(a[1..], b[1..]);
      assert a == [a[0]] + a[1..] && b == [b[0]] + b[1..];
    }
  }

  lemma TailsSameElements(a: seq<string>, b: seq<string>)
    requires |a| > 0 && |b| > 0 && a[0] == b[0]
    requires multiset(a) == multiset(b)
    ensures multiset(a[1..]) == multiset(b[1..])
  {
    assert a == [a[0]] + a[1..] && b == [b[0]] + b[1..];
    assert multiset(a[1..]) == multiset(a) - multiset{a[0]};
    assert multiset(b[1..]) == multiset(b) - multiset{a[0]};
  }

  lemma SortIgnoresOrder(s: seq<string>, t: seq<string>)
    requires multiset(s) == multiset(t)
    ensures Sort(s) == Sort(t)
  {
    SortedUnique(Sort(s), Sort(t));
  }
}

=== FILE: paths.dfy ===
/** The `os.path` functions the core calls, as POSIX `posixpath` defines
    them, and the "keep the files whose extension matches" filter that both
    the folder loader and the auto-labeller apply to a directory listing. */
module Paths {
  import opened Text

  const Sep: char := '/'

  /** `os.path.join(dir, name)` for two components. */
  function Join(dir: string, name: string): (p: string)
    ensures |name| > 0 && name[0] == Sep ==> p == name
    ensures (|name| == 0 || name[0] != Sep) ==>
              p == dir + (if dir == [] || dir[|dir| - 1] == Sep then [] else [Sep]) + name
  {
    if |name| > 0 && name[0] == Sep then name
    else if dir == [] || dir[|dir| - 1] == Sep then dir + name
    else dir + [Sep] + name
  }

  /** Joining to a fixed directory never merges two different names that are
      not absolute paths. */
  lemma JoinInjective(dir: string, a: string, b: string)
    requires |a| > 0 && a[0] != Sep && |b| > 0 && b[0] != Sep
    requires Join(dir, a) == Join(dir, b)
    ensures a == b
  {
    var d := dir + (if dir == [] || dir[|dir| - 1] == Sep then [] else [Sep]);
    assert Join(dir, a) == d + a && Join(dir, b) == d + b;
    assert a == (d + a)[|d|..] && b == (d + b)[|d|..];
  }

  /** `str.rfind(c)`: the last index holding `c`, or -1. */
  function RFind(s: string, c: char): (i: int)
    ensures -1 <= i < |s|
    ensures i >= 0 ==> s[i] == c
    ensures forall k :: i < k < |s| ==> s[k] != c
  {
    if |s| == 0 then -1
    else if s[|s| - 1] == c then |s| - 1
    else RFind(s[..|s| - 1], c)
  }

  predicate HasNonDot(s: string) {
    exists k :: 0 <= k < |s| && s[k] != '.'
  }

  /** No dot and no separator follows index `i` of `p`. */
  predicate PlainAfter(p: string, i: int)
    requires -1 <= i
  {
    forall k :: i < k < |p| ==> p[k] != '.' && p[k] != Sep
  }

  /** No separator lies in `p[lo..hi]`. */
  predicate NoSepIn(p: string, lo: int, hi: int)
    requires 0 <= lo && hi <= |p|
  {
    forall m :: lo <= m < hi ==> p[m] != Sep
  }

  /** Some character other than a dot precedes index `i` within its path
      component. */
  predicate NonDotBefore(p: string, i: int)
    requires i <= |p|
  {
    exists k :: 0 <= k < i && p[k] != '.' && NoSepIn(p, k, i)
  }

  /** The dot at index `i` of `p` starts `splitext`'s extension: it is the
      last dot, no separator follows it, and a character other than a dot
      precedes it within the last path component. */
  predicate ExtStartsAt(p: string, i: int) {
    0 <= i < |p| && p[i] == '.' && PlainAfter(p, i) && NonDotBefore(p, i)
  }

  /** At most one index starts an extension. */
  lemma ExtStartsAtUnique(p: string, i: int, j: int)
    requires ExtStartsAt(p, i) && ExtStartsAt(p, j)
    ensures i == j
  {
  }

  lemma ExtAtFoundDot(p: string, sepIndex: int, dotIndex: int)
    requires sepIndex == RFind(p, Sep) && dotIndex == RFind(p, '.')
    requires dotIndex > sepIndex && HasNonDot(p[sepIndex + 1..dotIndex])
    ensures ExtStartsAt(p, dotIndex)
  {
    var j :| 0 <= j < dotIndex - sepIndex - 1 && p[sepIndex + 1..dotIndex][j] != '.';
    var k := sepIndex + 1 + j;
    assert p[k] != '.' && NoSepIn(p, k, dotIndex);
    assert PlainAfter(p, dotIndex);
  }

  lemma NoExtWithoutFoundDot(p: string, sepIndex: int, dotIndex: int, i: int)
    requires sepIndex == RFind(p, Sep) && dotIndex == RFind(p, '.')
    requires ExtStartsAt(p, i)
    ensures dotIndex > sepIndex && HasNonDot(p[sepIndex + 1..dotIndex])
  {
    var k :| 0 <= k < i && p[k] != '.' && NoSepIn(p, k, i);
    assert PlainAfter(p, i);
    assert i == dotIndex;
    assert sepIndex < i;
    if sepIndex >= 0 {
      assert p[sepIndex] == Sep;
      assert !(k <= sepIndex < i);
    }
    assert p[sepIndex + 1..dotIndex][k - sepIndex - 1] != '.';
  }

  /** `os.path.splitext(p)`: the extension starts at the last dot of the last
      path component, unless only dots precede that dot in the component (so
      ".bashrc" has no extension). */
  function SplitExt(p: string): (parts: (string, string))
    ensures parts.0 + parts.1 == p
    ensures parts.1 == [] || parts.1[0] == '.'
    ensures forall k :: 0 < k < |parts.1| ==> parts.1[k] != '.' && parts.1[k] != Sep
    ensures parts.1 != [] <==> exists i :: ExtStartsAt(p, i)
    ensures parts.1 != [] ==> ExtStartsAt(p, |parts.0|)
  {
    var sepIndex := RFind(p, Sep);
    var dotIndex := RFind(p, '.');
    if dotIndex > sepIndex && HasNonDot(p[sepIndex + 1..dotIndex]) then
      ExtAtFoundDot(p, sepIndex, dotIndex);
      assert p[..dotIndex] + p[dotIndex..] == p;
      (p[..dotIndex], p[dotIndex..])
    else
      assert forall i :: !ExtStartsAt(p, i) by {
        forall i | ExtStartsAt(p, i)
          ensures false
        {
          NoExtWithoutFoundDot(p, sepIndex, dotIndex, i);
        }
      }
      (p, [])
  }

  /** `rfind` finds the last occurrence and nothing else. */
  lemma RFindAt(s: string, c: char, i: int)
    requires -1 <= i < |s|
    requires i >= 0 ==> s[i] == c
    requires forall k :: i < k < |s| ==> s[k] != c
    ensures RFind(s, c) == i
  {
  }

  /** Of a plain file name `stem + ext`, where `ext` is a dot followed by no
      further dots and the stem is not only dots, `splitext` returns exactly
      the stem and the extension. */
  lemma SplitExtOfName(stem: string, ext: string)
    requires forall k :: 0 <= k < |stem| ==> stem[k] != Sep
    requires HasNonDot(stem)
    requires |ext| > 0 && ext[0] == '.'
    requires forall k :: 0 < k < |ext| ==> ext[k] != '.' && ext[k] != Sep
    ensures SplitExt(stem + ext) == (stem, ext)
  {
    var p := stem + ext;
    forall k | |stem| < k < |p| ensures p[k] != '.' {
      assert p[k] == ext[k - |stem|];
    }
    RFindAt(p, '.', |stem|);
    forall k | -1 < k < |p| ensures p[k] != Sep {
      if k < |stem| { assert p[k] == stem[k]; } else { assert p[k] == ext[k - |stem|]; }
    }
    RFindAt(p, Sep, -1);
    assert p[0..|stem|] == stem;
    assert p[..|stem|] == stem && p[|stem|..] == ext;
  }

  /** True iff `name`, lower-cased, ends with one of `exts`. */
  predicate HasExt(name: string, exts: seq<string>) {
    EndsWithAny(Lower(name), exts)
  }

  /** The extension test ignores case: a name and its lower-cased form pass
      or fail together. */
  lemma HasExtIgnoresCase(name: string, exts: seq<string>)
    ensures HasExt(Lower(name), exts) <==> HasExt(name, exts)
  {
    LowerIdempotent(name);
  }

  /** `a` is `b` with some elements left out, the rest in the same order. */
  predicate IsSubsequence<T(==)>(a: seq<T>, b: seq<T>) {
    if a == [] then true
    else if b == [] then false
    else if a[0] == b[0] then IsSubsequence(a[1..], b[1..])
    else IsSubsequence(a, b[1..])
  }

  /** `[f for f in names if f.lower().endswith(exts)]`. */
  function SelectByExt(names: seq<string>, exts: seq<string>): (r: seq<string>)
    ensures IsSubsequence(r, names)
    ensures forall n :: multiset(r)[n] == if HasExt(n, exts) then multiset(names)[n] else 0
    ensures forall n :: n in r <==> n in names && HasExt(n, exts)
  {
    if names == [] then []
    else
      var rest := SelectByExt(names[1..], exts);
      assert names == [names[0]] + names[1..];
      assert multiset(names) == multiset{names[0]} + multiset(names[1..]);
      if HasExt(names[0], exts) then
        assert ([names[0]] + rest)[1..] == rest;
        [names[0]] + rest
      else
        assert forall n :: n in rest ==> n != names[0];
        rest
  }
}

=== FILE: select_label.dfy ===
/** `SelectLabelDialog`: a list of label names the user can extend and pick
    from. The `QListWidget` is its list of item texts; the current item is
    the row Qt reports, given as an argument. */
module SelectLabelDialog {
  import opened Wrappers
  import opened Text

  datatype Dialog = Dialog(items: seq<string>, selectedLabel: Option<string>, accepted: bool)

  /** `__init__(labels)`. */
  function Open(labels: seq<string>): (d: Dialog)
    ensures d.items == labels && d.selectedLabel.None? && !d.accepted
  {
    Dialog(labels, None, false)
  }

  /** `create_label`: `text` and `ok` are what `QInputDialog.getText`
      returned. A confirmed name that is not blank is appended, stripped. */
  function CreateLabel(d: Dialog, text: string, ok: bool): (r: Dialog)
    ensures r.selectedLabel == d.selectedLabel && r.accepted == d.accepted
    ensures |r.items| == |d.items| + 1 <==> ok && !AllSpace(text)
    ensures |d.items| <= |r.items| <= |d.items| + 1
    ensures r.items[..|d.items|] == d.items
    ensures |r.items| == |d.items| + 1 ==>
              var added := r.items[|d.items|];
              var i := StripStart(text, 0);
              && added != [] && IsStripped(added)
              && i + |added| <= |text| && added == text[i..i + |added|]
              && SpaceBetween(text, 0, i) && SpaceBetween(text, i + |added|, |text|)
  {
    var name := Strip(text);
    if ok && name != [] then
      StripIsSlice(text);
      d.(items := d.items + [name])
    else d
  }

  /** Names are not checked against the list: the same label can be added
      twice. */
  lemma CreateLabelAllowsDuplicates()
    ensures CreateLabel(Open(["cat"]), " cat ", true).items == ["cat", "cat"]
  {
    assert StripStart(" cat ", 0) == 1;
    assert StripEnd(" cat ", 1, 5) == 4;
    assert Strip(" cat ") == "cat";
  }

  /** `accept_label`: `current` is the row of `currentItem()`, `None` when
      there is none. */
  function AcceptLabel(d: Dialog, current: Option<nat>): (r: Dialog)
    requires current.Some? ==> current.value < |d.items|
    ensures r.items == d.items
    ensures current.None? ==> r == d
    ensures current.Some? ==> r.selectedLabel == Some(d.items[current.value]) && r.accepted
  {
    match current
    case None => d
    case Some(row) => d.(selectedLabel := Some(d.items[row]), accepted := true)
  }

  /** A label typed into the dialog and then picked is the typed text,
      stripped. */
  lemma CreateThenPick(labels: seq<string>, text: string)
    requires !AllSpace(text)
    ensures AcceptLabel(CreateLabel(Open(labels), text, true), Some(|labels|)).selectedLabel
            == Some(Strip(text))
  {
  }
}

=== FILE: text.dfy ===
/** Python string primitives the core relies on: `str.isspace`/`str.strip`,
    `str.lower` (ASCII letters only) and `str.endswith`. */
module Text {

  /** Python's `str.isspace()` for a single character: exactly the characters
      `str.strip()` removes when called without arguments. */
  predicate IsSpace(c: char) {
    || c == ' '
    || ('\t' <= c <= '\r')
    || ('\U{1C}' <= c <= '\U{1F}')
    || c == '\U{85}' || c == '\U{A0}' || c == '\U{1680}'
    || ('\U{2000}' <= c <= '\U{200A}')
    || c == '\U{2028}' || c == '\U{2029}' || c == '\U{202F}'
    || c == '\U{205F}' || c == '\U{3000}'
  }

  /** Every character of `s` from index `lo` up to `hi` is whitespace. */
  predicate SpaceBetween(s: string, lo: int, hi: int)
    requires 0 <= lo && hi <= |s|
  {
    forall k :: lo <= k < hi ==> IsSpace(s[k])
  }

  predicate AllSpace(s: string) {
    SpaceBetween(s, 0, |s|)
  }

  /** Neither end of `s` is whitespace: what `strip()` returns. */
  predicate IsStripped(s: string) {
    s == [] || (!IsSpace(s[0]) && !IsSpace(s[|s| - 1]))
  }

  /** The index of the first non-whitespace character at or after `i`, or
      `|s|`. */
  function StripStart(s: string, i: nat): (n: nat)
    requires i <= |s|
    ensures i <= n <= |s|
    ensures SpaceBetween(s, i, n)
    ensures n == |s| || !IsSpace(s[n])
    decreases |s| - i
  {
    if i < |s| && IsSpace(s[i]) then StripStart(s, i + 1) else i
  }

  /** The end of `s[lo..j]` once trailing whitespace is cut off. */
  function StripEnd(s: string, lo: nat, j: nat): (n: nat)
    requires lo <= j <= |s|
    ensures lo <= n <= j
    ensures SpaceBetween(s, n, j)
    ensures n == lo || !IsSpace(s[n - 1])
  {
    if j > lo && IsSpace(s[j - 1]) then StripEnd(s, lo, j - 1) else j
  }

  /** Python's `s.strip()`. */
  function Strip(s: string): (r: string)
    ensures IsStripped(r)
    ensures |r| <= |s|
    ensures r == [] <==> AllSpace(s)
  {
    var lo := StripStart(s, 0);
    var hi := StripEnd(s, lo, |s|);
    s[lo..hi]
  }

  /** `strip()` cuts whitespace off both ends and keeps everything between:
      the result is a slice of the input with only whitespace around it. */
  lemma StripIsSlice(s: string)
    ensures var i := StripStart(s, 0);
            var r := Strip(s);
            && i + |r| <= |s|
            && r == s[i..i + |r|]
            && SpaceBetween(s, 0, i)
            && SpaceBetween(s, i + |r|, |s|)
  {
  }

  /** Stripping a stripped string changes nothing, so `strip()` is idempotent. */
  lemma StripOfStripped(s: string)
    requires IsStripped(s)
    ensures Strip(s) == s
  {
  }

  lemma StripIdempotent(s: string)
    ensures Strip(Strip(s)) == Strip(s)
  {
    StripOfStripped(Strip(s));
  }

  /** Python's `str.lower()` restricted to ASCII letters. */
  function LowerChar(c: char): char {
    if 'A' <= c <= 'Z' then (c as int + 32) as char else c
  }

  /** Python's `str.lower()` on ASCII text: each capital letter becomes the
      small letter at the same place in the alphabet, every other character
      stays. */
  function Lower(s: string): (r: string)
    ensures |r| == |s|
    ensures forall k :: 0 <= k < |s| && !('A' <= s[k] <= 'Z') ==> r[k] == s[k]
    ensures forall k :: 0 <= k < |s| && 'A' <= s[k] <= 'Z' ==>
              'a' <= r[k] <= 'z' && r[k] as int - 'a' as int == s[k] as int - 'A' as int
  {
    seq(|s|, k requires 0 <= k < |s| => LowerChar(s[k]))
  }

  /** Lower-casing leaves no capital letter behind, so doing it twice is
      doing it once. */
  lemma LowerIdempotent(s: string)
    ensures forall k :: 0 <= k < |s| ==> !('A' <= Lower(s)[k] <= 'Z')
    ensures Lower(Lower(s)) == Lower(s)
  {
  }

  /** Python's `s.endswith(suffix)`. */
  predicate EndsWith(s: string, suffix: string) {
    |suffix| <= |s| && s[|s| - |suffix|..] == suffix
  }

  /** `s` ends with `suffix` exactly when `s` is some string followed by
      `suffix`. */
  lemma EndsWithIsConcat(s: string, suffix: string)
    ensures EndsWith(s, suffix) <==> exists t :: s == t + suffix
  {
    if EndsWith(s, suffix) {
      assert s == s[..|s| - |suffix|] + suffix;
    }
    if t :| s == t + suffix {
      assert s[|s| - |suffix|..] == suffix;
    }
  }

  /** Python's `s.endswith(suffixes)` with a tuple of suffixes. */
  predicate EndsWithAny(s: string, suffixes: seq<string>) {
    exists k :: 0 <= k < |suffixes| && EndsWith(s, suffixes[k])
  }
}

=== FILE: wrappers.dfy ===
/** `Option`, a `None`-or-value type (Python's `None` and Qt objects tested
    by truthiness), and `Result`, a value-or-error type for operations that
    can raise. */
module Wrappers {

  datatype Option<+T> = None | Some(value: T)

  datatype Result<+T, +E> = Ok(value: T) | Err(error: E)
}
